=== FILE: README.md ===
# Pan/tilt camera controller — a Dafny model

This project models the control logic of `PanTiltController` in `kamera3.py`.
The controller aims a two-servo camera mount at a target. The target is either
a point the operator clicks or the largest face a detector finds. The modelled
parts are:

- the zoom engine: manual zoom keys, the rate-limited automatic zoom regulator,
  and the pixel dead zone derived from the zoom level;
- the servo target computation: frame offset times a mode- and zoom-dependent
  gain, clamped to the servo limits and truncated;
- one face-tracking tick: largest-face choice, dead-zone and move-interval
  gating, auto-zoom, and the one-shot return to centre after the target is lost;
- the mouse callback and the key dispatch of the main loop, and whole runs of
  such events.

The controller is an immutable `State.Controller` record. Every operation is a
pure function that returns an `Effect`: the new state plus the list of
`POST /control` poses it sent. Clock readings are `now: real` parameters.
The reply to the status query is an `Option<map<string, real>>` parameter.
Detector output is a `seq<Box>`. The zoom level is an exact `real`.

`State.Valid` is the controller invariant: the zoom level is in [1.0, 5.0], the
dead zone is the one derived from it, and exactly one of click mode and face
tracking is on. `State.Init` satisfies it, and every operation preserves it.

Modules: `Wrappers` (Option), `Numeric` (Python's `int()`, `abs`, the clamp),
`Config` (the tuning values `__init__` sets and the literals the control methods hard-code: the 0.1 regulator step, the dead zone's 80 and 20, the gains, the (90, 90) fallback and the (90, 150) centre pose), `State`, `Zoom`, `Servo`, `Tracking`,
`ControlLoop`.

The model follows the code as written; notably:

- `auto_adjust_zoom` runs before the dead-zone test and the servo computation
  (kamera3.py:235). The new zoom level therefore sets the dead zone and the gain
  of the same tick.
- When the status query fails, `calculate_servo_position` returns (90, 90), and
  the face tick still posts that pose (kamera3.py:165-166, 273). The move is not
  skipped.
- `last_face_move_time` is updated whenever a move is decided, whatever the post
  returns (kamera3.py:273-274).
- Clicks are not gated by a move interval or a dead zone (kamera3.py:204-208).
- The dead zone truncates with `int()`; it does not round (kamera3.py:89).

## Model

| member | source | states |
|---|---|---|
| Numeric.Trunc | kamera3.py:200 | `int()` truncates toward zero: the result is the integer at most one unit from x on the side of zero |
| Numeric.Clamp | kamera3.py:197-198 | the clamp lands in [lo, hi], leaves in-range values alone, and sends values below or above the range to the nearer limit |
| State.DeadZone | kamera3.py:85-91 | the dead zone is never below 20; when above 20 it is the largest k with k·level ≤ 80; it is 20 exactly when 80 < 21·level; it is at most 80 for levels ≥ 1 |
| State.Init | kamera3.py:11-55 | the constructor's hard-coded dead zone 80 matches the one derived from zoom 1.0, so the start state satisfies the controller invariant; it starts in click mode with the recovery flag clear, no clicked point, and both the last-move and last-auto-zoom times at 0, so the first face move and the first auto-zoom are due at once |
| State.Start | kamera3.py:427 | the loop sets `running` and changes nothing else |
| Zoom.UpdateDeadZone | kamera3.py:85-91 | only the dead zone changes, it is at least 20, and it agrees with the zoom level afterwards |
| Zoom.ZoomIn | kamera3.py:370-375 | at or above the maximum nothing changes; below it the level rises by exactly 0.2, or to exactly the maximum when 0.2 would pass it, and the dead zone follows; only zoom fields change; the invariant is kept |
| Zoom.ZoomOut | kamera3.py:377-382 | at or below the minimum nothing changes; above it the level falls by exactly 0.2, or to exactly the minimum when 0.2 would pass it, and the dead zone follows; the invariant is kept |
| Zoom.ResetZoom | kamera3.py:384-388 | the level becomes 1.0 and the dead zone 80; nothing else changes |
| Zoom.ToggleAutoZoom | kamera3.py:390-394 | the auto-zoom switch flips and nothing else changes |
| Zoom.AutoAdjustZoom | kamera3.py:57-83 | nothing changes when auto-zoom is off, when less than the interval has passed, or when the width is within [80, 400]; the level rises iff the face is too narrow and the level is below the maximum, and then becomes `min(5.0, level + 0.1)` (exactly +0.1 when that fits, else exactly the maximum); it falls iff the face is too wide and the level is above the minimum, and then becomes `max(1.0, level - 0.1)`; a change stamps `now` and recomputes the dead zone; the invariant is kept |
| Zoom.QuotientAntitone | kamera3.py:89 | 80 / level shrinks as a positive level grows |
| Zoom.DeadZoneAntitone | kamera3.py:85-91 | for positive levels, a higher zoom never gives a wider dead zone |
| Zoom.DeadZoneRange | kamera3.py:85-91 | over the zoom range [1, 5] the dead zone is in [20, 80], and it is exactly 20 from level 4 up |
| Zoom.ManualZoomMovesDeadZone | kamera3.py:370-382 | zooming in never widens the dead zone; zooming out never narrows it |
| Zoom.ZoomOutUndoesZoomIn | kamera3.py:370-382 | a step out restores the state exactly after a step in that the maximum did not cut short |
| Zoom.ZoomInUndoesZoomOut | kamera3.py:370-382 | a step in restores the state exactly after a step out that the minimum did not cut short |
| Zoom.ToggleAutoZoomTwice | kamera3.py:390-394 | toggling auto-zoom twice restores the state |
| Zoom.AutoZoomMovesDeadZone | kamera3.py:66-83 | for a too-narrow face the regulator never widens the dead zone; for a too-wide face it never narrows it |
| Servo.ServoTarget | kamera3.py:157-200 | the pose is always within pan [30, 290] and tilt [45, 240]; a failed or empty status reply gives (90, 90); a point at the frame centre returns the reported pose, truncated, when that pose is within the limits |
| Servo.PanAntitoneInX | kamera3.py:171-200 | pan is inverted: a point further right never gives a larger pan |
| Servo.TiltMonotoneInY | kamera3.py:171-200 | tilt is not inverted: a point further down never gives a smaller tilt |
| Servo.TurnsTowardTarget | kamera3.py:159-200 | from an in-limits reported pose, a point right of centre never raises the pan, a point left never lowers it, and likewise a point below or above centre for the tilt |
| Servo.GainShrinks | kamera3.py:175-190 | the per-pixel gain is non-negative and non-increasing in the zoom level; the face-tracking gains never exceed the click gains |
| Servo.PanForDamped | kamera3.py:172-193 | the raw pan for a point right of centre is lower at a lower zoom; left of centre it is higher |
| Servo.TiltForDamped | kamera3.py:173-194 | the raw tilt for a point below centre is higher at a lower zoom; above centre it is lower |
| Servo.ZoomDampsPan | kamera3.py:171-200 | from an in-limits reported pan, the posted pan for a point right of centre lies between the lower-zoom result and the truncated current pan (the higher zoom corrects less), and symmetrically left of centre |
| Servo.ZoomDampsTilt | kamera3.py:171-200 | from an in-limits reported tilt, the posted tilt for a point below centre lies between the truncated current tilt and the lower-zoom result (the higher zoom corrects less), and symmetrically above centre |
| Servo.ClickTiltScenario | kamera3.py:176-200 | a click 200 px below centre at zoom 2.0 from (90, 90) gives (90, 105): the click tilt gain 0.15 divided by the zoom |
| Servo.ClickPanScenario | kamera3.py:176-200 | a click 200 px left of centre at zoom 1.0 from (90, 90) gives (120, 90): the click pan gain 0.15 |
| Servo.FaceTiltScenario | kamera3.py:176-200 | a face 100 px below centre at zoom 1.0 from (90, 90) gives (90, 92): the face tilt gain 0.02 |
| Servo.CorrectionScalesWithZoom | kamera3.py:176-194 | on both axes the correction at zoom z, multiplied by z, is exactly the correction at zoom 1: the gain is divided by the zoom, not some other function of it |
| Servo.FaceScenario | kamera3.py:157-200 | a face at (1000, 360), zoom 1.0, reported pose (90, 90) gives (75, 90) |
| Tracking.LargestIndex | kamera3.py:226-228 | the chosen box has the greatest area, and every earlier box has a strictly smaller area: the first maximum, as Python's `max` picks it |
| Tracking.LargestIndexUnique | kamera3.py:227 | only one index has both of those properties |
| Tracking.FaceTick | kamera3.py:219-274 | the detection time becomes `now` and the recovery flag is cleared; the zoom is what the regulator makes of the chosen width; exactly one in-limits command is posted iff the face centre is outside the post-regulator dead zone on some axis and the move interval has passed, otherwise none; the posted pose is the servo target of the chosen face's centre with the face-tracking gains at the post-regulator zoom; the move time is stamped iff a command is posted; apart from the move time, detection time and recovery flag, the state is exactly what the regulator leaves, including its time stamp; the modes and auto-zoom switch are untouched; the invariant is kept |
| Tracking.CenterCamera | kamera3.py:396-404 | posts exactly the centre pose (90, 150), forgets the clicked point, restarts the lost-target window at the given instant and clears the recovery flag; no other field changes |
| Tracking.LostTick | kamera3.py:292-302 | after the timeout with the flag clear, exactly the centre pose is posted, zoom resets to 1.0 with dead zone 80, the flag is set and the window restarts at the centring instant, with no other field (move time, auto-zoom time, modes, switches) changed; otherwise, and always while the flag is set, nothing changes and nothing is posted |
| Tracking.Track | kamera3.py:214-302 | at most one in-limits command per frame; with faces, the zoom is what the regulator makes of the largest face's width, a command is posted exactly when that face's centre is outside the resulting dead zone and the move interval has passed, and it is the face-tracking servo target of that centre; a seen face stamps the detection time and clears the flag; a faceless frame centres the camera (and sets the flag) exactly when the timeout has passed with the flag clear, and otherwise changes nothing; modes are untouched; the invariant is kept |
| Tracking.FaceTickTurnsTowardFace | kamera3.py:256-273 | from an in-limits reported pose, a posted move for a face right of centre never raises the pan, left never lowers it, below never lowers the tilt, above never raises it |
| Tracking.JitterNeverMoves | kamera3.py:256-265 | a face within 20 pixels of the centre on both axes never moves the servos |
| Tracking.TooSoonNeverMoves | kamera3.py:259-265 | a face tick within the move interval never moves the servos |
| Tracking.LargeOffsetMoves | kamera3.py:256-274 | a face more than 80 pixels off centre on some axis, after the move interval, always posts exactly one command |
| ControlLoop.Click | kamera3.py:202-212 | a left-button press in click mode posts exactly one in-limits pose, the servo target of the clicked point with the click gains, and records the clicked point and nothing else; any other event changes nothing |
| ControlLoop.ClickTurnsTowardPoint | kamera3.py:202-208 | from an in-limits reported pose, a click right of centre never raises the pan, left never lowers it, below never lowers the tilt, above never raises it |
| ControlLoop.FrameStep | kamera3.py:438-440 | outside face-tracking mode a frame does nothing; in face-tracking mode it is exactly one tracking tick, with all the tick's guarantees; at most one in-limits command; the invariant is kept |
| ControlLoop.FrameLargeOffsetMoves | kamera3.py:256-274 | a frame event in face-tracking mode whose largest face is more than 80 pixels off centre on some axis, after the move interval, posts exactly one command, aimed at that face's centre |
| ControlLoop.FrameJitterNeverMoves | kamera3.py:256-265 | a frame event in face-tracking mode whose largest face is within 20 pixels of the centre on both axes posts nothing |
| ControlLoop.HandleKey | kamera3.py:447-468 | only 'c' posts a command, and it is the centre pose; only space and 'c' clear the recovery flag, and both restart the lost-target window; only space changes modes, and it flips both flags; only 'q' stops the loop; 'q' changes nothing else, space changes only the two modes, the detection time and the flag, and 'c' is exactly the centring operation; '+' and '=' zoom in, '-' zooms out, 'r' resets the zoom and 'a' toggles auto-zoom, all posting nothing; every other key, including 255 for no key, changes nothing; the invariant is kept |
| ControlLoop.SpaceTwiceRestoresModes | kamera3.py:451-458 | two space presses restore both mode flags; the only lasting effect is a cleared recovery flag and a lost-target window restarted at the second press |
| ControlLoop.Run | kamera3.py:427-468 | every posted pose of a run is within the servo limits, a run posts at most one command per event, and the invariant holds after it |
| ControlLoop.RunAppend | kamera3.py:427-468 | running two stretches of events back to back is running the second from where the first left off: the command log is the first stretch's commands followed by the second's, in order, and the final state is the same |
| ControlLoop.RunCons | kamera3.py:427-468 | while the loop runs, an event's commands are posted before those of every later event |
| ControlLoop.ReachableStatesValid | kamera3.py:11-55 | every state reachable from construction satisfies the invariant, and every pose ever posted is within limits |
| ControlLoop.RecoveredStaysQuiet | kamera3.py:294-302 | once recovery has fired in face-tracking mode, nothing is posted and the flag stays set until a face, a space or a 'c' arrives |
| ControlLoop.QuietRunCentresAtMostOnce | kamera3.py:294-302 | across any stretch without a face, space or 'c', face tracking posts at most one command, and it is the centre pose |
| ControlLoop.TimeoutCentresExactlyOnce | kamera3.py:294-302 | a faceless frame after the timeout with the flag clear, followed by any such stretch, posts the centre pose exactly once |

## Left out

- Camera setup, frame capture, `apply_zoom`'s crop and resize, window display and `cleanup` (kamera3.py:93-132, 406-426, 429-437, 441-445, 472-477): device and presentation I/O. A failed frame read ends the loop; in the model the caller just stops supplying events.
- `send_servo_command` (kamera3.py:134-155): HTTP. A post is recorded as a `Command` in the returned list; its reply is ignored by every caller. The status query's reply is a parameter.
- The Haar cascade and the YOLO model load (kamera3.py:1-8, 31, 216-217): foreign detectors. Their output is the `seq<Box>` input.
- Drawing and text overlays, including the size colours and the dead-zone ratio display (kamera3.py:237-250, 276-290, 304-311, 315-368): rendering only. `target_face_width` is used only for display and is not modelled.
- `duba.py`: a separate webcam and YOLO display script with no control logic.
- Status replies that are not objects with numeric `pan` and `tilt`: a truthy non-object reply (`[1]`, `5`, `"x"`, `true`) raises `AttributeError` at `status.get` (kamera3.py:168), and a non-numeric `pan` or `tilt` value fails in the arithmetic. The model's status reply is a map of numbers only. A falsy reply of any JSON type (`[]`, `0`, `""`, `false`, `null`) takes the (90, 90) fallback at kamera3.py:165-166; the model's `None` and `map[]` stand for these.
- Floating point: zoom levels, gains and times are exact reals. Python's `+ 0.1` and `+ 0.2` steps round, so `int()` at an exact boundary can differ by one from the model. The zoom level itself drifts too: ten +0.1 steps from 1.0 give 2.000000000000001 rather than 2.0, and the regulator needs 41 steps rather than 40 to reach 5.0.
- Zoom.ZoomOutUndoesZoomIn: holds in exact arithmetic; with Python floats a step in then out can miss the starting level by a rounding error.
- Zoom.ZoomInUndoesZoomOut: holds in exact arithmetic; with Python floats a step out then in can miss the starting level by a rounding error.
- Box areas are unbounded integers; NumPy's fixed-width `w * h` cannot overflow at 1280x720 frames anyway.
- Clock readings: `detect_and_track_faces` reads the clock at kamera3.py:219, and `auto_adjust_zoom` reads it again at kamera3.py:62 with no blocking call in between. Both are the tick's single `now`. `center_camera` reads it after its HTTP post (kamera3.py:403); that reading is the separate `centerNow`.
- Mouse callbacks arrive from inside `waitKey`. A run is modelled as one interleaved sequence of frame, key and mouse events.
- Operations require `zoomLevel > 0`: the level is a divisor in `update_dead_zone` and `calculate_servo_position`, every operation keeps it positive, and it starts at 1.0.

=== FILE: config.dfy ===
/**
 * The tuning constants `PanTiltController.__init__` fixes and the literals the
 * control methods hard-code. None of them is ever reassigned.
 */
module Config {

  /** Requested camera resolution; the frame centre is its floor half. */
  const FrameWidth: int := 1280
  const FrameHeight: int := 720
  const CenterX: int := FrameWidth / 2
  const CenterY: int := FrameHeight / 2

  /** Software zoom range and the manual step of the `+` / `-` keys. */
  const ZoomMin: real := 1.0
  const ZoomMax: real := 5.0
  const ZoomStep: real := 0.2

  /** The automatic regulator moves the zoom level by this much per adjustment. */
  const AutoZoomStep: real := 0.1

  /** Minimum time between two face-tracking moves. */
  const FaceMoveInterval: real := 0.3

  /** The dead zone is `BaseDeadZone / zoom`, never below `MinDeadZone` pixels. */
  const BaseDeadZone: int := 80
  const MinDeadZone: int := 20

  /** Face widths outside this range make the regulator zoom in or out. */
  const MinFaceWidth: int := 80
  const MaxFaceWidth: int := 400
  const AutoZoomInterval: real := 1.0

  /** Seconds without a face before the camera returns to centre. */
  const NoFaceTimeout: real := 5.0

  /** Servo safety limits. */
  const PanMin: int := 30
  const PanMax: int := 290
  const TiltMin: int := 45
  const TiltMax: int := 240

  /** The pose `center_camera` posts. */
  const CentrePan: int := 90
  const CentreTilt: int := 150

  /** The pose returned when the actuator's status cannot be read. */
  const FallbackPan: int := 90
  const FallbackTilt: int := 90

  /** The default `status.get` supplies for a missing axis. */
  const MissingAxis: real := 90.0

  /** Base gains: slow for face tracking, faster for a single click. */
  const FacePanGain: real := 0.04
  const FaceTiltGain: real := 0.02
  const ClickPanGain: real := 0.15
  const ClickTiltGain: real := 0.15
}

=== FILE: control_loop.dfy ===
/**
 * The controller side of `run`: the mouse callback, the per-frame tracking
 * call, the key dispatch, and whole runs of such events.
 */
module ControlLoop {
  import opened Wrappers
  import opened Config
  import opened State
  import opened Zoom
  import opened Servo
  import opened Tracking
  import Numeric

  /** Key codes after `waitKey(1) & 0xFF`. */
  const KeyQuit: int := 'q' as int
  const KeyMode: int := ' ' as int
  const KeyCentre: int := 'c' as int
  const KeyZoomIn: int := '+' as int
  const KeyZoomInAlt: int := '=' as int
  const KeyZoomOut: int := '-' as int
  const KeyZoomReset: int := 'r' as int
  const KeyAutoZoom: int := 'a' as int

  /** `waitKey(1) & 0xFF`; the no-key result -1 becomes 255. */
  function KeyOf(code: int): int
  {
    code % 256
  }

  /** The eight keys the dispatch reacts to. */
  predicate Bound(key: int)
  {
    key in {KeyQuit, KeyMode, KeyCentre, KeyZoomIn, KeyZoomInAlt, KeyZoomOut, KeyZoomReset, KeyAutoZoom}
  }

  /**
   * `mouse_callback`: in click mode a left-button press aims at the clicked
   * point with the click gains, without dead zone or interval gating.
   */
  function Click(s: Controller, leftDown: bool, x: int, y: int, status: Option<Status>): (r: Effect)
    requires s.zoomLevel > 0.0
    ensures |r.commands| == (if leftDown && s.clickMode then 1 else 0)
    ensures AllInLimits(r.commands)
    ensures |r.commands| == 1 ==>
              var p := ServoTarget(s.zoomLevel, x, y, false, status);
              r.commands == [Move(p.0, p.1)]
    ensures |r.commands| == 1 ==> r.state.target == Some((x, y)) && r.state.(target := s.target) == s
    ensures |r.commands| == 0 ==> r.state == s
  {
    if leftDown && s.clickMode then
      var p := ServoTarget(s.zoomLevel, x, y, false, status);
      Effect(s.(target := Some((x, y))), [Move(p.0, p.1)])
    else
      Effect(s, [])
  }

  /**
   * A click turns the camera toward the clicked point: from an in-limits
   * reported pose, a point right of centre never raises the pan, one left of
   * centre never lowers it, one below never lowers the tilt, one above never raises it.
   */
  lemma {:induction false} ClickTurnsTowardPoint(s: Controller, x: int, y: int, m: Status)
    requires s.zoomLevel > 0.0 && s.clickMode
    requires m != map[]
    requires PanMin as real <= Axis(m, "pan") <= PanMax as real
    requires TiltMin as real <= Axis(m, "tilt") <= TiltMax as real
    ensures var r := Click(s, true, x, y, Some(m));
            && |r.commands| == 1
            && (x >= CenterX ==> r.commands[0].pan <= Numeric.Trunc(Axis(m, "pan")))
            && (x <= CenterX ==> r.commands[0].pan >= Numeric.Trunc(Axis(m, "pan")))
            && (y >= CenterY ==> r.commands[0].tilt >= Numeric.Trunc(Axis(m, "tilt")))
            && (y <= CenterY ==> r.commands[0].tilt <= Numeric.Trunc(Axis(m, "tilt")))
  {
    TurnsTowardTarget(s.zoomLevel, x, y, false, m);
  }

  /** One pass of the loop body before the key: tracking runs only in face-tracking mode. */
  function FrameStep(s: Controller, faces: seq<Box>, now: real, status: Option<Status>, centerNow: real): (r: Effect)
    requires s.zoomLevel > 0.0
    ensures !s.faceTracking ==> r == Effect(s, [])
    ensures s.faceTracking ==> r == Track(s, faces, now, status, centerNow)
    ensures r.state.zoomLevel > 0.0
    ensures |r.commands| <= 1 && AllInLimits(r.commands)
    ensures Valid(s) ==> Valid(r.state)
  {
    if s.faceTracking then Track(s, faces, now, status, centerNow) else Effect(s, [])
  }

  /** The key dispatch at the end of each loop pass. `now` is the clock reading the key handler takes. */
  function HandleKey(s: Controller, code: int, now: real): (r: Effect)
    requires s.zoomLevel > 0.0
    ensures r.state.zoomLevel > 0.0
    ensures |r.commands| <= 1 && AllInLimits(r.commands)
    // only 'c' posts a command, and it is the centre pose
    ensures |r.commands| == 1 <==> KeyOf(code) == KeyCentre
    ensures KeyOf(code) == KeyCentre ==> r.commands == [Move(CentrePan, CentreTilt)]
    // only space and 'c' clear the recovery flag, and both restart the lost-target window
    ensures r.state.lostTargetRecovery ==
              (s.lostTargetRecovery && KeyOf(code) != KeyMode && KeyOf(code) != KeyCentre)
    ensures KeyOf(code) == KeyMode || KeyOf(code) == KeyCentre ==> r.state.lastFaceDetectionTime == now
    // only space switches modes, and it switches both flags together
    ensures r.state.faceTracking == (if KeyOf(code) == KeyMode then !s.faceTracking else s.faceTracking)
    ensures r.state.clickMode == (if KeyOf(code) == KeyMode then !s.clickMode else s.clickMode)
    ensures r.state.running == (s.running && KeyOf(code) != KeyQuit)
    // 'q', space and 'c' change nothing beyond what they are for
    ensures KeyOf(code) == KeyQuit ==> r.commands == [] && r.state.(running := s.running) == s
    ensures KeyOf(code) == KeyMode ==>
              r.state.(clickMode := s.clickMode, faceTracking := s.faceTracking,
                       lastFaceDetectionTime := s.lastFaceDetectionTime,
                       lostTargetRecovery := s.lostTargetRecovery) == s
    ensures KeyOf(code) == KeyCentre ==> r == CenterCamera(s, now)
    // the zoom keys and the auto-zoom key act through the zoom engine and post nothing
    ensures KeyOf(code) == KeyZoomIn || KeyOf(code) == KeyZoomInAlt ==> r == Effect(ZoomIn(s), [])
    ensures KeyOf(code) == KeyZoomOut ==> r == Effect(ZoomOut(s), [])
    ensures KeyOf(code) == KeyZoomReset ==> r == Effect(ResetZoom(s), [])
    ensures KeyOf(code) == KeyAutoZoom ==> r == Effect(ToggleAutoZoom(s), [])
    // every other key, including 255 for no key at all, changes nothing
    ensures !Bound(KeyOf(code)) ==> r == Effect(s, [])
    ensures Valid(s) ==> Valid(r.state)
  {
    var key := KeyOf(code);
    if key == KeyQuit then
      Effect(s.(running := false), [])
    else if key == KeyMode then
      Effect(s.(clickMode := !s.clickMode, faceTracking := !s.faceTracking,
                lastFaceDetectionTime := now, lostTargetRecovery := false), [])
    else if key == KeyCentre then
      CenterCamera(s, now)
    else if key == KeyZoomIn || key == KeyZoomInAlt then
      Effect(ZoomIn(s), [])
    else if key == KeyZoomOut then
      Effect(ZoomOut(s), [])
    else if key == KeyZoomReset then
      Effect(ResetZoom(s), [])
    else if key == KeyAutoZoom then
      Effect(ToggleAutoZoom(s), [])
    else
      Effect(s, [])
  }

  /** Pressing space twice restores both modes; what remains is the restarted, cleared recovery window. */
  lemma SpaceTwiceRestoresModes(s: Controller, t1: real, t2: real)
    requires s.zoomLevel > 0.0
    ensures HandleKey(HandleKey(s, KeyMode, t1).state, KeyMode, t2).state
              == s.(lastFaceDetectionTime := t2, lostTargetRecovery := false)
  {
  }

  /** One thing that can happen to the controller while `run` loops. */
  datatype Event =
    | Frame(faces: seq<Box>, now: real, status: Option<Status>, centerNow: real)
    | Key(code: int, keyNow: real)
    | Mouse(leftDown: bool, x: int, y: int, clickStatus: Option<Status>)

  function Step(s: Controller, e: Event): (r: Effect)
    requires s.zoomLevel > 0.0
    ensures r.state.zoomLevel > 0.0
    ensures |r.commands| <= 1 && AllInLimits(r.commands)
    ensures Valid(s) ==> Valid(r.state)
  {
    match e
    case Frame(faces, now, status, centerNow) => FrameStep(s, faces, now, status, centerNow)
    case Key(code, now) => HandleKey(s, code, now)
    case Mouse(leftDown, x, y, status) => Click(s, leftDown, x, y, status)
  }

  lemma AllInLimitsAppend(a: seq<Command>, b: seq<Command>)
    requires AllInLimits(a) && AllInLimits(b)
    ensures AllInLimits(a + b)
  {
    forall i | 0 <= i < |a + b|
      ensures InLimits((a + b)[i])
    {
      if i < |a| {
        assert (a + b)[i] == a[i];
      } else {
        assert (a + b)[i] == b[i - |a|];
      }
    }
  }

  /**
   * The events of a run in order, with every command posted; the loop ends
   * once `running` is false.
   */
  function Run(s: Controller, events: seq<Event>): (r: Effect)
    requires s.zoomLevel > 0.0
    ensures r.state.zoomLevel > 0.0
    ensures AllInLimits(r.commands)
    ensures |r.commands| <= |events|
    ensures Valid(s) ==> Valid(r.state)
    decreases |events|
  {
    if |events| == 0 || !s.running then
      Effect(s, [])
    else
      var first := Step(s, events[0]);
      var rest := Run(first.state, events[1..]);
      AllInLimitsAppend(first.commands, rest.commands);
      Effect(rest.state, first.commands + rest.commands)
  }

  /** Every state reachable from the start keeps the invariant; every posted pose is within limits. */
  lemma ReachableStatesValid(t: real, events: seq<Event>)
    ensures Valid(Run(Start(Init(t)), events).state)
    ensures AllInLimits(Run(Start(Init(t)), events).commands)
  {
  }

  /** An event that can neither show a face nor clear the recovery flag. */
  predicate Quiet(e: Event)
  {
    match e
    case Frame(faces, _, _, _) => |faces| == 0
    case Key(code, _) => KeyOf(code) != KeyMode && KeyOf(code) != KeyCentre
    case Mouse(_, _, _, _) => true
  }

  /**
   * Once recovery has fired in face-tracking mode, nothing is posted until a
   * face is seen, space is pressed or 'c' is pressed, and the flag stays set.
   */
  lemma {:induction false} RecoveredStaysQuiet(s: Controller, events: seq<Event>)
    requires s.zoomLevel > 0.0
    requires s.faceTracking && !s.clickMode && s.lostTargetRecovery
    requires forall i :: 0 <= i < |events| ==> Quiet(events[i])
    ensures Run(s, events).commands == []
    ensures Run(s, events).state.lostTargetRecovery
    decreases |events|
  {
    if |events| > 0 && s.running {
      var first := Step(s, events[0]);
      assert Quiet(events[0]);
      assert first.commands == [];
      assert first.state.faceTracking && !first.state.clickMode && first.state.lostTargetRecovery;
      RecoveredStaysQuiet(first.state, events[1..]);
    }
  }

  /**
   * Lost-target recovery is one-shot: across any quiet stretch in face-tracking
   * mode at most one command is posted, and it is the centre pose.
   */
  lemma {:induction false} QuietRunCentresAtMostOnce(s: Controller, events: seq<Event>)
    requires s.zoomLevel > 0.0
    requires s.faceTracking && !s.clickMode
    requires forall i :: 0 <= i < |events| ==> Quiet(events[i])
    ensures Run(s, events).commands == [] || Run(s, events).commands == [Move(CentrePan, CentreTilt)]
    decreases |events|
  {
    if |events| > 0 && s.running {
      var first := Step(s, events[0]);
      assert Quiet(events[0]);
      assert first.state.faceTracking && !first.state.clickMode;
      if first.commands == [] {
        QuietRunCentresAtMostOnce(first.state, events[1..]);
      } else {
        assert first.commands == [Move(CentrePan, CentreTilt)] && first.state.lostTargetRecovery;
        RecoveredStaysQuiet(first.state, events[1..]);
      }
    }
  }

  /**
   * A faceless frame after the timeout, with the flag clear, posts the centre
   * pose; the rest of a quiet stretch posts nothing more.
   */
  lemma TimeoutCentresExactlyOnce(s: Controller, now: real, status: Option<Status>, centerNow: real, events: seq<Event>)
    requires s.zoomLevel > 0.0 && s.running
    requires s.faceTracking && !s.clickMode && !s.lostTargetRecovery
    requires TimedOut(s, now)
    requires forall i :: 0 <= i < |events| ==> Quiet(events[i])
    ensures Run(s, [Frame([], now, status, centerNow)] + events).commands == [Move(CentrePan, CentreTilt)]
  {
    var all := [Frame([], now, status, centerNow)] + events;
    assert all[1..] == events;
    var first := Step(s, all[0]);
    assert first.commands == [Move(CentrePan, CentreTilt)];
    RecoveredStaysQuiet(first.state, events);
  }

  /**
   * A frame in face-tracking mode whose chosen face lies beyond the widest
   * dead zone, after the move interval, posts exactly one move aimed at it.
   */
  lemma FrameLargeOffsetMoves(s: Controller, faces: seq<Box>, now: real, status: Option<Status>, centerNow: real)
    requires Valid(s) && s.faceTracking
    requires |faces| > 0
    requires OutsideDeadZone(CentreOf(faces[LargestIndex(faces)]), BaseDeadZone)
    requires MoveDue(now, s.lastFaceMoveTime)
    ensures var r := Step(s, Frame(faces, now, status, centerNow));
            var c := CentreOf(faces[LargestIndex(faces)]);
            var p := ServoTarget(r.state.zoomLevel, c.0, c.1, true, status);
            |r.commands| == 1 && r.commands[0] == Move(p.0, p.1)
  {
    LargeOffsetMoves(s, faces, now, status);
  }

  /** A frame in face-tracking mode whose chosen face is within 20 pixels of centre posts nothing. */
  lemma FrameJitterNeverMoves(s: Controller, faces: seq<Box>, now: real, status: Option<Status>, centerNow: real)
    requires Valid(s) && s.faceTracking
    requires |faces| > 0
    requires var c := CentreOf(faces[LargestIndex(faces)]);
             Numeric.Abs(c.0 - CenterX) <= MinDeadZone && Numeric.Abs(c.1 - CenterY) <= MinDeadZone
    ensures Step(s, Frame(faces, now, status, centerNow)).commands == []
  {
    JitterNeverMoves(s, faces, now, status);
  }

  /**
   * A run over `a + b` is the run over `a` followed by the run over `b` from
   * where `a` left off: the log keeps every event's commands, in order.
   */
  lemma {:induction false} RunAppend(s: Controller, a: seq<Event>, b: seq<Event>)
    requires s.zoomLevel > 0.0
    ensures Run(s, a + b).state == Run(Run(s, a).state, b).state
    ensures Run(s, a + b).commands == Run(s, a).commands + Run(Run(s, a).state, b).commands
    decreases |a|
  {
    if |a| == 0 {
      assert a + b == b;
    } else if !s.running {
    } else {
      var first := Step(s, a[0]);
      assert (a + b)[0] == a[0];
      assert (a + b)[1..] == a[1..] + b;
      RunAppend(first.state, a[1..], b);
    }
  }

  /** A run over one event after `e` posts that event's commands first, then the rest's. */
  lemma RunCons(s: Controller, e: Event, rest: seq<Event>)
    requires s.zoomLevel > 0.0 && s.running
    ensures Run(s, [e] + rest).commands == Step(s, e).commands + Run(Step(s, e).state, rest).commands
  {
    assert ([e] + rest)[1..] == rest;
  }
}

=== FILE: numeric.dfy ===
/** Exact stand-ins for the Python built-ins the controller applies to numbers. */
module Numeric {

  /** Python's `int()` on a float: truncation toward zero. */
  function Trunc(x: real): (r: int)
    ensures 0.0 <= x ==> r as real <= x < r as real + 1.0
    ensures x < 0.0 ==> r as real - 1.0 < x <= r as real
  {
    if x >= 0.0 then x.Floor else -((-x).Floor)
  }

  /** Truncation never reverses the order of its arguments. */
  lemma TruncMonotone(x: real, y: real)
    requires x <= y
    ensures Trunc(x) <= Trunc(y)
  {
  }

  /** Python's `abs` on an integer. */
  function Abs(n: int): nat
  {
    if n < 0 then -n else n
  }

  function MaxInt(a: int, b: int): int
  {
    if a >= b then a else b
  }

  function MinReal(a: real, b: real): real
  {
    if a <= b then a else b
  }

  function MaxReal(a: real, b: real): real
  {
    if a >= b then a else b
  }

  /** `max(lo, min(hi, v))`, the servo-limit clamp. */
  function Clamp(lo: real, hi: real, v: real): (r: real)
    requires lo <= hi
    ensures lo <= r <= hi
    ensures lo <= v <= hi ==> r == v
    ensures v < lo ==> r == lo
    ensures hi < v ==> r == hi
  {
    MaxReal(lo, MinReal(hi, v))
  }

  /** Clamping preserves the order of its arguments. */
  lemma ClampMonotone(lo: real, hi: real, u: real, v: real)
    requires lo <= hi
    requires u <= v
    ensures Clamp(lo, hi, u) <= Clamp(lo, hi, v)
  {
  }
}

=== FILE: servo.dfy ===
/** `calculate_servo_position`: turning a frame point into an absolute, clamped servo pose. */
module Servo {
  import opened Wrappers
  import opened Config
  import opened Numeric

  /** The JSON object `GET /status` answers with, numeric fields only. */
  type Status = map<string, real>

  /** `status.get(key, 90)`. */
  function Axis(m: Status, key: string): real
  {
    if key in m then m[key] else MissingAxis
  }

  /** The correction per pixel: the mode's base gain scaled by `1 / zoom`. */
  function Gain(base: real, zoom: real): real
    requires zoom != 0.0
  {
    base * (1.0 / zoom)
  }

  function PanGain(faceTracking: bool): real
  {
    if faceTracking then FacePanGain else ClickPanGain
  }

  function TiltGain(faceTracking: bool): real
  {
    if faceTracking then FaceTiltGain else ClickTiltGain
  }

  /** The pan the actuator would be sent for a point `x` from a reported pan `current`. */
  function PanFor(zoom: real, x: int, faceTracking: bool, current: real): real
    requires zoom != 0.0
  {
    current + (CenterX - x) as real * Gain(PanGain(faceTracking), zoom)
  }

  /** The tilt for a point `y`; unlike pan, the tilt axis is not inverted. */
  function TiltFor(zoom: real, y: int, faceTracking: bool, current: real): real
    requires zoom != 0.0
  {
    current + (y - CenterY) as real * Gain(TiltGain(faceTracking), zoom)
  }

  /**
   * The pose for frame point (x, y). `status` is the reply to the status query:
   * `None` for a failed request, `map[]` for the falsy empty object; both give
   * the fixed fallback pose. Otherwise the reported pose is corrected by the
   * offset from the frame centre, clamped to the servo limits and truncated.
   */
  function ServoTarget(zoom: real, x: int, y: int, faceTracking: bool, status: Option<Status>): (p: (int, int))
    requires zoom != 0.0
    ensures PanMin <= p.0 <= PanMax && TiltMin <= p.1 <= TiltMax
    ensures status.None? || status.value == map[] ==> p == (FallbackPan, FallbackTilt)
    ensures status.Some? && status.value != map[] && x == CenterX && y == CenterY ==>
              var pan := Axis(status.value, "pan");
              var tilt := Axis(status.value, "tilt");
              && (PanMin as real <= pan <= PanMax as real ==> p.0 == Trunc(pan))
              && (TiltMin as real <= tilt <= TiltMax as real ==> p.1 == Trunc(tilt))
  {
    if status.None? || status.value == map[] then
      (FallbackPan, FallbackTilt)
    else
      var m := status.value;
      var pan := PanFor(zoom, x, faceTracking, Axis(m, "pan"));
      var tilt := TiltFor(zoom, y, faceTracking, Axis(m, "tilt"));
      (Trunc(Clamp(PanMin as real, PanMax as real, pan)),
       Trunc(Clamp(TiltMin as real, TiltMax as real, tilt)))
  }

  /** Pan is inverted: a point further right never yields a larger pan. */
  lemma {:induction false} PanAntitoneInX(zoom: real, x1: int, x2: int, y: int, faceTracking: bool, status: Option<Status>)
    requires zoom > 0.0
    requires x1 <= x2
    ensures ServoTarget(zoom, x2, y, faceTracking, status).0 <= ServoTarget(zoom, x1, y, faceTracking, status).0
  {
    if status.Some? && status.value != map[] {
      var cur := Axis(status.value, "pan");
      var g := Gain(PanGain(faceTracking), zoom);
      assert g > 0.0;
      assert (x2 - x1) as real * g >= 0.0;
      assert PanFor(zoom, x2, faceTracking, cur) <= PanFor(zoom, x1, faceTracking, cur);
      ClampMonotone(PanMin as real, PanMax as real, PanFor(zoom, x2, faceTracking, cur), PanFor(zoom, x1, faceTracking, cur));
      TruncMonotone(Clamp(PanMin as real, PanMax as real, PanFor(zoom, x2, faceTracking, cur)),
                    Clamp(PanMin as real, PanMax as real, PanFor(zoom, x1, faceTracking, cur)));
    }
  }

  /** Tilt is not inverted: a point further down never yields a smaller tilt. */
  lemma {:induction false} TiltMonotoneInY(zoom: real, x: int, y1: int, y2: int, faceTracking: bool, status: Option<Status>)
    requires zoom > 0.0
    requires y1 <= y2
    ensures ServoTarget(zoom, x, y1, faceTracking, status).1 <= ServoTarget(zoom, x, y2, faceTracking, status).1
  {
    if status.Some? && status.value != map[] {
      var cur := Axis(status.value, "tilt");
      var g := Gain(TiltGain(faceTracking), zoom);
      assert g > 0.0;
      assert (y2 - y1) as real * g >= 0.0;
      assert TiltFor(zoom, y1, faceTracking, cur) <= TiltFor(zoom, y2, faceTracking, cur);
      ClampMonotone(TiltMin as real, TiltMax as real, TiltFor(zoom, y1, faceTracking, cur), TiltFor(zoom, y2, faceTracking, cur));
      TruncMonotone(Clamp(TiltMin as real, TiltMax as real, TiltFor(zoom, y1, faceTracking, cur)),
                    Clamp(TiltMin as real, TiltMax as real, TiltFor(zoom, y2, faceTracking, cur)));
    }
  }

  /**
   * The correction turns toward the target: from a reported pose inside the
   * limits, a point right of centre never raises the pan and a point below
   * centre never lowers the tilt (and symmetrically).
   */
  lemma TurnsTowardTarget(zoom: real, x: int, y: int, faceTracking: bool, m: Status)
    requires zoom > 0.0
    requires m != map[]
    requires PanMin as real <= Axis(m, "pan") <= PanMax as real
    requires TiltMin as real <= Axis(m, "tilt") <= TiltMax as real
    ensures x >= CenterX ==> ServoTarget(zoom, x, y, faceTracking, Some(m)).0 <= Trunc(Axis(m, "pan"))
    ensures x <= CenterX ==> ServoTarget(zoom, x, y, faceTracking, Some(m)).0 >= Trunc(Axis(m, "pan"))
    ensures y >= CenterY ==> ServoTarget(zoom, x, y, faceTracking, Some(m)).1 >= Trunc(Axis(m, "tilt"))
    ensures y <= CenterY ==> ServoTarget(zoom, x, y, faceTracking, Some(m)).1 <= Trunc(Axis(m, "tilt"))
  {
    var st := Some(m);
    assert ServoTarget(zoom, CenterX, y, faceTracking, st).0 == Trunc(Axis(m, "pan")) by {
      assert ServoTarget(zoom, CenterX, y, faceTracking, st).0 == ServoTarget(zoom, CenterX, CenterY, faceTracking, st).0;
    }
    assert ServoTarget(zoom, x, CenterY, faceTracking, st).1 == Trunc(Axis(m, "tilt")) by {
      assert ServoTarget(zoom, x, CenterY, faceTracking, st).1 == ServoTarget(zoom, CenterX, CenterY, faceTracking, st).1;
    }
    if x >= CenterX {
      PanAntitoneInX(zoom, CenterX, x, y, faceTracking, st);
    }
    if x <= CenterX {
      PanAntitoneInX(zoom, x, CenterX, y, faceTracking, st);
    }
    if y >= CenterY {
      TiltMonotoneInY(zoom, x, CenterY, y, faceTracking, st);
    }
    if y <= CenterY {
      TiltMonotoneInY(zoom, x, y, CenterY, faceTracking, st);
    }
  }

  /**
   * The correction for a given offset shrinks as the zoom grows, and face
   * tracking never corrects harder than a click.
   */
  lemma GainShrinks(base: real, z1: real, z2: real)
    requires 0.0 <= base
    requires 0.0 < z1 <= z2
    ensures 0.0 <= Gain(base, z2) <= Gain(base, z1)
    ensures Gain(FacePanGain, z1) <= Gain(ClickPanGain, z1)
    ensures Gain(FaceTiltGain, z1) <= Gain(ClickTiltGain, z1)
  {
  }

  /** The pan `ServoTarget` gives for a non-empty status reply. */
  lemma ServoPan(zoom: real, x: int, y: int, faceTracking: bool, m: Status)
    requires zoom != 0.0 && m != map[]
    ensures ServoTarget(zoom, x, y, faceTracking, Some(m)).0
              == Trunc(Clamp(PanMin as real, PanMax as real, PanFor(zoom, x, faceTracking, Axis(m, "pan"))))
  {
  }

  /** The tilt `ServoTarget` gives for a non-empty status reply. */
  lemma ServoTilt(zoom: real, x: int, y: int, faceTracking: bool, m: Status)
    requires zoom != 0.0 && m != map[]
    ensures ServoTarget(zoom, x, y, faceTracking, Some(m)).1
              == Trunc(Clamp(TiltMin as real, TiltMax as real, TiltFor(zoom, y, faceTracking, Axis(m, "tilt"))))
  {
  }

  /** For a point right of centre the raw pan falls less at a higher zoom; left of centre it rises less. */
  lemma PanForDamped(z1: real, z2: real, x: int, faceTracking: bool, cur: real)
    requires 0.0 < z1 <= z2
    ensures x >= CenterX ==> PanFor(z1, x, faceTracking, cur) <= PanFor(z2, x, faceTracking, cur)
    ensures x <= CenterX ==> PanFor(z2, x, faceTracking, cur) <= PanFor(z1, x, faceTracking, cur)
  {
    var g1 := Gain(PanGain(faceTracking), z1);
    var g2 := Gain(PanGain(faceTracking), z2);
    GainShrinks(PanGain(faceTracking), z1, z2);
    var d := (CenterX - x) as real;
    assert d * g1 - d * g2 == d * (g1 - g2);
  }

  /** For a point below centre the raw tilt rises less at a higher zoom; above centre it falls less. */
  lemma TiltForDamped(z1: real, z2: real, y: int, faceTracking: bool, cur: real)
    requires 0.0 < z1 <= z2
    ensures y >= CenterY ==> TiltFor(z2, y, faceTracking, cur) <= TiltFor(z1, y, faceTracking, cur)
    ensures y <= CenterY ==> TiltFor(z1, y, faceTracking, cur) <= TiltFor(z2, y, faceTracking, cur)
  {
    var g1 := Gain(TiltGain(faceTracking), z1);
    var g2 := Gain(TiltGain(faceTracking), z2);
    GainShrinks(TiltGain(faceTracking), z1, z2);
    var d := (y - CenterY) as real;
    assert d * g1 - d * g2 == d * (g1 - g2);
  }

  /**
   * Zoom damps the pan correction: from an in-limits reported pan, the pan for
   * a point right of centre falls less at a higher zoom, and for a point left
   * of centre it rises less.
   */
  lemma {:induction false} ZoomDampsPan(z1: real, z2: real, x: int, y: int, faceTracking: bool, m: Status)
    requires 0.0 < z1 <= z2
    requires m != map[]
    requires PanMin as real <= Axis(m, "pan") <= PanMax as real
    ensures x >= CenterX ==>
              ServoTarget(z1, x, y, faceTracking, Some(m)).0 <= ServoTarget(z2, x, y, faceTracking, Some(m)).0 <= Trunc(Axis(m, "pan"))
    ensures x <= CenterX ==>
              Trunc(Axis(m, "pan")) <= ServoTarget(z2, x, y, faceTracking, Some(m)).0 <= ServoTarget(z1, x, y, faceTracking, Some(m)).0
  {
    var pan := Axis(m, "pan");
    PanForDamped(z1, z2, x, faceTracking, pan);
    ServoPan(z1, x, y, faceTracking, m);
    ServoPan(z2, x, y, faceTracking, m);
    ServoPan(z2, CenterX, y, faceTracking, m);
    if x >= CenterX {
      OrderedPose(PanMin, PanMax, PanFor(z1, x, faceTracking, pan), PanFor(z2, x, faceTracking, pan));
      PanAntitoneInX(z2, CenterX, x, y, faceTracking, Some(m));
    }
    if x <= CenterX {
      OrderedPose(PanMin, PanMax, PanFor(z2, x, faceTracking, pan), PanFor(z1, x, faceTracking, pan));
      PanAntitoneInX(z2, x, CenterX, y, faceTracking, Some(m));
    }
  }

  /**
   * Zoom damps the tilt correction: from an in-limits reported tilt, the tilt
   * for a point below centre rises less at a higher zoom, and for a point
   * above centre it falls less.
   */
  lemma {:induction false} ZoomDampsTilt(z1: real, z2: real, x: int, y: int, faceTracking: bool, m: Status)
    requires 0.0 < z1 <= z2
    requires m != map[]
    requires TiltMin as real <= Axis(m, "tilt") <= TiltMax as real
    ensures y >= CenterY ==>
              Trunc(Axis(m, "tilt")) <= ServoTarget(z2, x, y, faceTracking, Some(m)).1 <= ServoTarget(z1, x, y, faceTracking, Some(m)).1
    ensures y <= CenterY ==>
              ServoTarget(z1, x, y, faceTracking, Some(m)).1 <= ServoTarget(z2, x, y, faceTracking, Some(m)).1 <= Trunc(Axis(m, "tilt"))
  {
    var tilt := Axis(m, "tilt");
    TiltForDamped(z1, z2, y, faceTracking, tilt);
    ServoTilt(z1, x, y, faceTracking, m);
    ServoTilt(z2, x, y, faceTracking, m);
    ServoTilt(z2, x, CenterY, faceTracking, m);
    if y >= CenterY {
      OrderedPose(TiltMin, TiltMax, TiltFor(z2, y, faceTracking, tilt), TiltFor(z1, y, faceTracking, tilt));
      TiltMonotoneInY(z2, x, CenterY, y, faceTracking, Some(m));
    }
    if y <= CenterY {
      OrderedPose(TiltMin, TiltMax, TiltFor(z1, y, faceTracking, tilt), TiltFor(z2, y, faceTracking, tilt));
      TiltMonotoneInY(z2, x, y, CenterY, faceTracking, Some(m));
    }
  }

  /** Clamping to integer limits and truncating keeps two raw axis values in order. */
  lemma OrderedPose(lo: int, hi: int, u: real, v: real)
    requires lo <= hi
    requires u <= v
    ensures Trunc(Clamp(lo as real, hi as real, u)) <= Trunc(Clamp(lo as real, hi as real, v))
  {
    ClampMonotone(lo as real, hi as real, u, v);
    TruncMonotone(Clamp(lo as real, hi as real, u), Clamp(lo as real, hi as real, v));
  }

  /**
   * A face at (1000, 360) at zoom 1.0 from a reported pose (90, 90): the pan
   * moves by -360 * 0.04 to 75.6 and truncates to 75; the tilt stays.
   */
  lemma FaceScenario()
    ensures ServoTarget(1.0, 1000, 360, true, Some(map["pan" := 90.0, "tilt" := 90.0])) == (75, 90)
  {
    var m := map["pan" := 90.0, "tilt" := 90.0];
    assert Axis(m, "pan") == 90.0 && Axis(m, "tilt") == 90.0;
    assert PanFor(1.0, 1000, true, 90.0) == 75.6;
    assert TiltFor(1.0, 360, true, 90.0) == 90.0;
  }

  /**
   * Click gains and the zoom division: a click 200 pixels below centre at
   * zoom 2.0 from (90, 90) moves the tilt by 200 * 0.15 / 2 = 15.
   */
  lemma ClickTiltScenario()
    ensures ServoTarget(2.0, 640, 560, false, Some(map["pan" := 90.0, "tilt" := 90.0])) == (90, 105)
  {
    var m := map["pan" := 90.0, "tilt" := 90.0];
    assert Axis(m, "pan") == 90.0 && Axis(m, "tilt") == 90.0;
    assert PanFor(2.0, 640, false, 90.0) == 90.0;
    assert TiltFor(2.0, 560, false, 90.0) == 105.0;
  }

  /** A click 200 pixels left of centre at zoom 1.0 raises the pan by 200 * 0.15 = 30. */
  lemma ClickPanScenario()
    ensures ServoTarget(1.0, 440, 360, false, Some(map["pan" := 90.0, "tilt" := 90.0])) == (120, 90)
  {
    var m := map["pan" := 90.0, "tilt" := 90.0];
    assert Axis(m, "pan") == 90.0 && Axis(m, "tilt") == 90.0;
    assert PanFor(1.0, 440, false, 90.0) == 120.0;
    assert TiltFor(1.0, 360, false, 90.0) == 90.0;
  }

  /** A face 100 pixels below centre at zoom 1.0 raises the tilt by 100 * 0.02 = 2. */
  lemma FaceTiltScenario()
    ensures ServoTarget(1.0, 640, 460, true, Some(map["pan" := 90.0, "tilt" := 90.0])) == (90, 92)
  {
    var m := map["pan" := 90.0, "tilt" := 90.0];
    assert Axis(m, "pan") == 90.0 && Axis(m, "tilt") == 90.0;
    assert PanFor(1.0, 640, true, 90.0) == 90.0;
    assert TiltFor(1.0, 460, true, 90.0) == 92.0;
  }

  /** The correction at zoom z is exactly the zoom-1 correction divided by z, on both axes. */
  lemma CorrectionScalesWithZoom(z: real, x: int, y: int, faceTracking: bool, pan: real, tilt: real)
    requires z > 0.0
    ensures (PanFor(z, x, faceTracking, pan) - pan) * z == PanFor(1.0, x, faceTracking, pan) - pan
    ensures (TiltFor(z, y, faceTracking, tilt) - tilt) * z == TiltFor(1.0, y, faceTracking, tilt) - tilt
  {
    assert (1.0 / z) * z == 1.0;
  }
}

=== FILE: state.dfy ===
/** The controller record, the commands it posts, and the invariant every reachable state keeps. */
module State {
  import opened Wrappers
  import opened Config
  import opened Numeric

  /** The fields of `PanTiltController` that take part in control decisions. */
  datatype Controller = Controller(
    running: bool,
    clickMode: bool,
    faceTracking: bool,
    target: Option<(int, int)>,
    zoomLevel: real,
    faceDeadZone: int,
    lastFaceMoveTime: real,
    autoZoomEnabled: bool,
    lastAutoZoomTime: real,
    lastFaceDetectionTime: real,
    lostTargetRecovery: bool)

  /** A `POST /control` request carrying an absolute pan/tilt pose. */
  datatype Command = Move(pan: int, tilt: int)

  /** A new controller state together with the commands posted on the way, in order. */
  datatype Effect = Effect(state: Controller, commands: seq<Command>)

  predicate InLimits(c: Command)
  {
    PanMin <= c.pan <= PanMax && TiltMin <= c.tilt <= TiltMax
  }

  predicate AllInLimits(cs: seq<Command>)
  {
    forall i :: 0 <= i < |cs| ==> InLimits(cs[i])
  }

  /**
   * The pixel dead zone `update_dead_zone` derives from a zoom level:
   * `max(20, int(80 / level))`. A zero level is a division by zero there.
   */
  function DeadZone(level: real): (r: int)
    requires level != 0.0
    ensures r >= MinDeadZone
    ensures level < 0.0 ==> r == MinDeadZone
    ensures 0.0 < level && r > MinDeadZone ==>
              r as real * level <= BaseDeadZone as real < (r + 1) as real * level
    ensures 0.0 < level && r == MinDeadZone ==>
              BaseDeadZone as real < (MinDeadZone + 1) as real * level
    ensures 1.0 <= level ==> r <= BaseDeadZone
  {
    var q := BaseDeadZone as real / level;
    assert 0.0 < level ==> q * level == BaseDeadZone as real;
    MaxInt(MinDeadZone, Trunc(q))
  }

  /** The controller invariant: zoom in range, dead zone derived from it, exactly one mode on. */
  predicate Valid(s: Controller)
  {
    && ZoomMin <= s.zoomLevel <= ZoomMax
    && s.faceDeadZone == DeadZone(s.zoomLevel)
    && s.clickMode == !s.faceTracking
  }

  /** The state `__init__` builds; `now` is the clock reading it stores as the last detection. */
  function Init(now: real): (s: Controller)
    ensures Valid(s)
    ensures s.clickMode && !s.running && s.autoZoomEnabled && !s.lostTargetRecovery
    ensures s.zoomLevel == ZoomMin && s.lastFaceDetectionTime == now
    ensures s.target == None && s.lastFaceMoveTime == 0.0 && s.lastAutoZoomTime == 0.0
  {
    Controller(
      running := false,
      clickMode := true,
      faceTracking := false,
      target := None,
      zoomLevel := 1.0,
      faceDeadZone := 80,
      lastFaceMoveTime := 0.0,
      autoZoomEnabled := true,
      lastAutoZoomTime := 0.0,
      lastFaceDetectionTime := now,
      lostTargetRecovery := false)
  }

  /** `run` sets `running` before entering its loop. */
  function Start(s: Controller): (r: Controller)
    ensures r.running
    ensures r.(running := s.running) == s
  {
    s.(running := true)
  }
}

=== FILE: tracking.dfy ===
/**
 * The decision part of `detect_and_track_faces`: choosing the face, gating the
 * move on the dead zone and the move interval, and the one-shot return to
 * centre after the target has been lost for too long.
 */
module Tracking {
  import opened Wrappers
  import opened Config
  import opened Numeric
  import opened State
  import opened Zoom
  import opened Servo

  /** One detector hit: top-left corner, width and height in pixels. */
  datatype Box = Box(x: int, y: int, w: int, h: int)

  function Area(b: Box): int
  {
    b.w * b.h
  }

  /**
   * The index Python's `max(faces, key=area)` picks: a box of greatest area,
   * and of all such boxes the first.
   */
  function LargestIndex(faces: seq<Box>): (i: nat)
    requires |faces| > 0
    ensures i < |faces|
    ensures forall j :: 0 <= j < |faces| ==> Area(faces[j]) <= Area(faces[i])
    ensures forall j :: 0 <= j < i ==> Area(faces[j]) < Area(faces[i])
    decreases |faces|
  {
    if |faces| == 1 then 0
    else
      var k := LargestIndex(faces[..|faces| - 1]);
      if Area(faces[|faces| - 1]) > Area(faces[k]) then |faces| - 1 else k
  }

  /** The properties of `LargestIndex` pin the chosen box down uniquely. */
  lemma LargestIndexUnique(faces: seq<Box>, j: nat)
    requires j < |faces|
    requires forall k :: 0 <= k < |faces| ==> Area(faces[k]) <= Area(faces[j])
    requires forall k :: 0 <= k < j ==> Area(faces[k]) < Area(faces[j])
    ensures LargestIndex(faces) == j
  {
  }

  /** The centre of a box, with Python's floor division for the half sizes. */
  function CentreOf(b: Box): (int, int)
  {
    (b.x + b.w / 2, b.y + b.h / 2)
  }

  /** The face centre is farther than `deadZone` from the frame centre on some axis. */
  predicate OutsideDeadZone(c: (int, int), deadZone: int)
  {
    Abs(c.0 - CenterX) > deadZone || Abs(c.1 - CenterY) > deadZone
  }

  /** Enough time has passed since the last face-tracking move. */
  predicate MoveDue(now: real, lastMove: real)
  {
    now - lastMove > FaceMoveInterval
  }

  /**
   * One tick with at least one face. The detection time is stamped, the
   * recovery flag cleared, the regulator consulted with the chosen face's width,
   * and only then, against the dead zone the regulator leaves behind, is the
   * move decided. `status` is the actuator's answer to the status query.
   */
  function FaceTick(s: Controller, faces: seq<Box>, now: real, status: Option<Status>): (r: Effect)
    requires |faces| > 0
    requires s.zoomLevel > 0.0
    ensures r.state.zoomLevel > 0.0
    ensures r.state.lastFaceDetectionTime == now && !r.state.lostTargetRecovery
    ensures |r.commands| <= 1 && AllInLimits(r.commands)
    ensures var b := faces[LargestIndex(faces)];
            && r.state.zoomLevel == AutoAdjustZoom(s, b.w, now).zoomLevel
            && (|r.commands| == 1 <==>
                  OutsideDeadZone(CentreOf(b), r.state.faceDeadZone) && MoveDue(now, s.lastFaceMoveTime))
    ensures var c := CentreOf(faces[LargestIndex(faces)]);
            var p := ServoTarget(r.state.zoomLevel, c.0, c.1, true, status);
            |r.commands| == 1 ==> r.commands == [Move(p.0, p.1)]
    ensures r.state.lastFaceMoveTime == if |r.commands| == 1 then now else s.lastFaceMoveTime
    // apart from the three tracking stamps, the state is exactly what the regulator leaves
    ensures r.state.(lastFaceMoveTime := s.lastFaceMoveTime, lastFaceDetectionTime := s.lastFaceDetectionTime,
                     lostTargetRecovery := s.lostTargetRecovery)
              == AutoAdjustZoom(s, faces[LargestIndex(faces)].w, now)
    ensures r.state.running == s.running && r.state.clickMode == s.clickMode
    ensures r.state.faceTracking == s.faceTracking && r.state.target == s.target
    ensures r.state.autoZoomEnabled == s.autoZoomEnabled
    ensures Valid(s) ==> Valid(r.state)
  {
    var b := faces[LargestIndex(faces)];
    var c := CentreOf(b);
    var seen := s.(lastFaceDetectionTime := now, lostTargetRecovery := false);
    var z := AutoAdjustZoom(seen, b.w, now);
    if OutsideDeadZone(c, z.faceDeadZone) && MoveDue(now, z.lastFaceMoveTime) then
      var p := ServoTarget(z.zoomLevel, c.0, c.1, true, status);
      Effect(z.(lastFaceMoveTime := now), [Move(p.0, p.1)])
    else
      Effect(z, [])
  }

  /**
   * `center_camera`: post the centre pose, forget the clicked point and restart
   * the lost-target window at `now`, the clock reading taken after the post.
   */
  function CenterCamera(s: Controller, now: real): (r: Effect)
    ensures r.commands == [Move(CentrePan, CentreTilt)] && AllInLimits(r.commands)
    ensures r.state.target == None
    ensures r.state.lastFaceDetectionTime == now && !r.state.lostTargetRecovery
    ensures r.state.(target := s.target, lastFaceDetectionTime := s.lastFaceDetectionTime,
                     lostTargetRecovery := s.lostTargetRecovery) == s
  {
    Effect(s.(target := None, lastFaceDetectionTime := now, lostTargetRecovery := false),
           [Move(CentrePan, CentreTilt)])
  }

  /** The target has been out of sight for longer than the timeout. */
  predicate TimedOut(s: Controller, now: real)
  {
    now - s.lastFaceDetectionTime > NoFaceTimeout
  }

  /**
   * One tick without a face. After the timeout, and only while the recovery
   * flag is clear, the camera is centred, the zoom reset and the flag set.
   * `centerNow` is the clock reading `center_camera` takes.
   */
  function LostTick(s: Controller, now: real, centerNow: real): (r: Effect)
    ensures TimedOut(s, now) && !s.lostTargetRecovery ==>
              && r.commands == [Move(CentrePan, CentreTilt)]
              && r.state.lostTargetRecovery
              && r.state.zoomLevel == ZoomMin && r.state.faceDeadZone == BaseDeadZone
              && r.state.lastFaceDetectionTime == centerNow
              && r.state.target == None
              && r.state.(target := s.target, zoomLevel := s.zoomLevel, faceDeadZone := s.faceDeadZone,
                          lastFaceDetectionTime := s.lastFaceDetectionTime,
                          lostTargetRecovery := s.lostTargetRecovery) == s
    ensures !(TimedOut(s, now) && !s.lostTargetRecovery) ==> r == Effect(s, [])
    ensures s.lostTargetRecovery ==> r == Effect(s, [])
    ensures AllInLimits(r.commands)
    ensures r.state.zoomLevel > 0.0 || r.state == s
    ensures r.state.running == s.running && r.state.clickMode == s.clickMode
    ensures r.state.faceTracking == s.faceTracking && r.state.autoZoomEnabled == s.autoZoomEnabled
    ensures Valid(s) ==> Valid(r.state)
  {
    if TimedOut(s, now) && !s.lostTargetRecovery then
      var c := CenterCamera(s, centerNow);
      Effect(ResetZoom(c.state).(lostTargetRecovery := true), c.commands)
    else
      Effect(s, [])
  }

  /** The whole of `detect_and_track_faces` for one frame's detections. */
  function Track(s: Controller, faces: seq<Box>, now: real, status: Option<Status>, centerNow: real): (r: Effect)
    requires s.zoomLevel > 0.0
    ensures r.state.zoomLevel > 0.0
    ensures |r.commands| <= 1 && AllInLimits(r.commands)
    ensures |faces| > 0 ==> r.state.lastFaceDetectionTime == now && !r.state.lostTargetRecovery
    // a frame with faces: the regulator runs on the chosen face and the move is gated and aimed at it
    ensures |faces| > 0 ==>
              var c := CentreOf(faces[LargestIndex(faces)]);
              var p := ServoTarget(r.state.zoomLevel, c.0, c.1, true, status);
              && r.state.zoomLevel == AutoAdjustZoom(s, faces[LargestIndex(faces)].w, now).zoomLevel
              && (|r.commands| == 1 <==> OutsideDeadZone(c, r.state.faceDeadZone) && MoveDue(now, s.lastFaceMoveTime))
              && (|r.commands| == 1 ==> r.commands == [Move(p.0, p.1)])
    // a faceless frame: centring only after the timeout and only once per loss
    ensures |faces| == 0 && !(TimedOut(s, now) && !s.lostTargetRecovery) ==> r == Effect(s, [])
    ensures |faces| == 0 && TimedOut(s, now) && !s.lostTargetRecovery ==>
              r.commands == [Move(CentrePan, CentreTilt)] && r.state.lostTargetRecovery
    ensures |faces| == 0 && s.lostTargetRecovery ==> r == Effect(s, [])
    ensures r.state.running == s.running && r.state.clickMode == s.clickMode
    ensures r.state.faceTracking == s.faceTracking && r.state.autoZoomEnabled == s.autoZoomEnabled
    ensures Valid(s) ==> Valid(r.state)
  {
    if |faces| > 0 then FaceTick(s, faces, now, status) else LostTick(s, now, centerNow)
  }

  /** Jitter inside the smallest possible dead zone never moves the servos. */
  lemma JitterNeverMoves(s: Controller, faces: seq<Box>, now: real, status: Option<Status>)
    requires Valid(s)
    requires |faces| > 0
    requires var c := CentreOf(faces[LargestIndex(faces)]);
             Abs(c.0 - CenterX) <= MinDeadZone && Abs(c.1 - CenterY) <= MinDeadZone
    ensures FaceTick(s, faces, now, status).commands == []
  {
  }

  /** Without the move interval having elapsed, a face tick never moves the servos. */
  lemma TooSoonNeverMoves(s: Controller, faces: seq<Box>, now: real, status: Option<Status>)
    requires s.zoomLevel > 0.0
    requires |faces| > 0
    requires now - s.lastFaceMoveTime <= FaceMoveInterval
    ensures FaceTick(s, faces, now, status).commands == []
  {
  }

  /**
   * An offset beyond the widest possible dead zone, once the interval has
   * elapsed, always yields exactly one move, whatever the regulator did.
   */
  lemma LargeOffsetMoves(s: Controller, faces: seq<Box>, now: real, status: Option<Status>)
    requires Valid(s)
    requires |faces| > 0
    requires OutsideDeadZone(CentreOf(faces[LargestIndex(faces)]), BaseDeadZone)
    requires MoveDue(now, s.lastFaceMoveTime)
    ensures |FaceTick(s, faces, now, status).commands| == 1
  {
  }

  /**
   * A posted face-tracking move turns toward the face: from an in-limits
   * reported pose, a face right of centre never raises the pan, one left of
   * centre never lowers it, one below centre never lowers the tilt and one
   * above centre never raises it.
   */
  lemma {:induction false} FaceTickTurnsTowardFace(s: Controller, faces: seq<Box>, now: real, m: Status)
    requires s.zoomLevel > 0.0
    requires |faces| > 0
    requires m != map[]
    requires PanMin as real <= Axis(m, "pan") <= PanMax as real
    requires TiltMin as real <= Axis(m, "tilt") <= TiltMax as real
    ensures var r := FaceTick(s, faces, now, Some(m));
            var c := CentreOf(faces[LargestIndex(faces)]);
            |r.commands| == 1 ==>
              && (c.0 >= CenterX ==> r.commands[0].pan <= Trunc(Axis(m, "pan")))
              && (c.0 <= CenterX ==> r.commands[0].pan >= Trunc(Axis(m, "pan")))
              && (c.1 >= CenterY ==> r.commands[0].tilt >= Trunc(Axis(m, "tilt")))
              && (c.1 <= CenterY ==> r.commands[0].tilt <= Trunc(Axis(m, "tilt")))
  {
    var r := FaceTick(s, faces, now, Some(m));
    var c := CentreOf(faces[LargestIndex(faces)]);
    TurnsTowardTarget(r.state.zoomLevel, c.0, c.1, true, m);
  }
}

=== FILE: wrappers.dfy ===
/** The optional-value datatype used for the controller's nullable fields and oracle replies. */
module Wrappers {

  /** Python's `None` or a present value. */
  datatype Option<+T> = None | Some(value: T)
}

=== FILE: zoom.dfy ===
/** The zoom engine: manual zoom keys, the automatic regulator, and the dead zone they drive. */
module Zoom {
  import opened Config
  import opened Numeric
  import opened State

  /** Nothing but the zoom level and the dead zone differ between `s` and `r`. */
  predicate OnlyZoomChanged(s: Controller, r: Controller)
  {
    r == s.(zoomLevel := r.zoomLevel, faceDeadZone := r.faceDeadZone)
  }

  /** `update_dead_zone`: recompute the dead zone from the current level, touching nothing else. */
  function UpdateDeadZone(s: Controller): (r: Controller)
    requires s.zoomLevel != 0.0
    ensures r.faceDeadZone >= MinDeadZone
    ensures r.zoomLevel == s.zoomLevel && OnlyZoomChanged(s, r)
    ensures ZoomMin <= s.zoomLevel <= ZoomMax && s.clickMode == !s.faceTracking ==> Valid(r)
  {
    s.(faceDeadZone := DeadZone(s.zoomLevel))
  }

  /** `zoom_in`: one manual step up, capped at the maximum; a no-op at the maximum. */
  function ZoomIn(s: Controller): (r: Controller)
    requires s.zoomLevel > 0.0
    ensures r.zoomLevel > 0.0
    ensures OnlyZoomChanged(s, r)
    ensures s.zoomLevel >= ZoomMax ==> r == s
    ensures s.zoomLevel < ZoomMax ==>
              && s.zoomLevel < r.zoomLevel <= ZoomMax
              && (r.zoomLevel == s.zoomLevel + ZoomStep || r.zoomLevel == ZoomMax)
              && (s.zoomLevel + ZoomStep <= ZoomMax ==> r.zoomLevel == s.zoomLevel + ZoomStep)
              && (s.zoomLevel + ZoomStep > ZoomMax ==> r.zoomLevel == ZoomMax)
              && r.faceDeadZone == DeadZone(r.zoomLevel)
    ensures Valid(s) ==> Valid(r)
  {
    if s.zoomLevel < ZoomMax then
      UpdateDeadZone(s.(zoomLevel := MinReal(ZoomMax, s.zoomLevel + ZoomStep)))
    else
      s
  }

  /** `zoom_out`: one manual step down, floored at the minimum; a no-op at the minimum. */
  function ZoomOut(s: Controller): (r: Controller)
    requires s.zoomLevel > 0.0
    ensures r.zoomLevel > 0.0
    ensures OnlyZoomChanged(s, r)
    ensures s.zoomLevel <= ZoomMin ==> r == s
    ensures s.zoomLevel > ZoomMin ==>
              && ZoomMin <= r.zoomLevel < s.zoomLevel
              && (r.zoomLevel == s.zoomLevel - ZoomStep || r.zoomLevel == ZoomMin)
              && (s.zoomLevel - ZoomStep >= ZoomMin ==> r.zoomLevel == s.zoomLevel - ZoomStep)
              && (s.zoomLevel - ZoomStep < ZoomMin ==> r.zoomLevel == ZoomMin)
              && r.faceDeadZone == DeadZone(r.zoomLevel)
    ensures Valid(s) ==> Valid(r)
  {
    if s.zoomLevel > ZoomMin then
      UpdateDeadZone(s.(zoomLevel := MaxReal(ZoomMin, s.zoomLevel - ZoomStep)))
    else
      s
  }

  /** `reset_zoom`: back to level 1.0 with the full base dead zone. */
  function ResetZoom(s: Controller): (r: Controller)
    ensures r.zoomLevel == ZoomMin && r.faceDeadZone == BaseDeadZone
    ensures OnlyZoomChanged(s, r)
    ensures s.clickMode == !s.faceTracking ==> Valid(r)
  {
    UpdateDeadZone(s.(zoomLevel := 1.0))
  }

  /** `toggle_auto_zoom`: flip the regulator switch and nothing else. */
  function ToggleAutoZoom(s: Controller): (r: Controller)
    ensures r.autoZoomEnabled != s.autoZoomEnabled
    ensures r.(autoZoomEnabled := s.autoZoomEnabled) == s
  {
    s.(autoZoomEnabled := !s.autoZoomEnabled)
  }

  /**
   * `auto_adjust_zoom`: the rate-limited two-threshold regulator. A face narrower
   * than `MinFaceWidth` zooms in by one small step, one wider than `MaxFaceWidth`
   * zooms out; a change stamps the time and recomputes the dead zone.
   */
  function AutoAdjustZoom(s: Controller, faceWidth: int, now: real): (r: Controller)
    requires s.zoomLevel > 0.0
    ensures r.zoomLevel > 0.0
    ensures r == s.(zoomLevel := r.zoomLevel, faceDeadZone := r.faceDeadZone,
                    lastAutoZoomTime := r.lastAutoZoomTime)
    // the three cases in which the regulator leaves everything as it was
    ensures !s.autoZoomEnabled ==> r == s
    ensures now - s.lastAutoZoomTime < AutoZoomInterval ==> r == s
    ensures MinFaceWidth <= faceWidth <= MaxFaceWidth ==> r == s
    // zooming in: only for a small face, by at most one step, never past the maximum
    ensures r.zoomLevel > s.zoomLevel <==>
              && s.autoZoomEnabled && now - s.lastAutoZoomTime >= AutoZoomInterval
              && faceWidth < MinFaceWidth && s.zoomLevel < ZoomMax
    ensures r.zoomLevel > s.zoomLevel ==>
              && r.zoomLevel <= ZoomMax
              && (r.zoomLevel == s.zoomLevel + AutoZoomStep || r.zoomLevel == ZoomMax)
              && (s.zoomLevel + AutoZoomStep <= ZoomMax ==> r.zoomLevel == s.zoomLevel + AutoZoomStep)
              && (s.zoomLevel + AutoZoomStep > ZoomMax ==> r.zoomLevel == ZoomMax)
    // zooming out: only for a large face, by at most one step, never below the minimum
    ensures r.zoomLevel < s.zoomLevel <==>
              && s.autoZoomEnabled && now - s.lastAutoZoomTime >= AutoZoomInterval
              && faceWidth > MaxFaceWidth && s.zoomLevel > ZoomMin
    ensures r.zoomLevel < s.zoomLevel ==>
              && ZoomMin <= r.zoomLevel
              && (r.zoomLevel == s.zoomLevel - AutoZoomStep || r.zoomLevel == ZoomMin)
              && (s.zoomLevel - AutoZoomStep >= ZoomMin ==> r.zoomLevel == s.zoomLevel - AutoZoomStep)
              && (s.zoomLevel - AutoZoomStep < ZoomMin ==> r.zoomLevel == ZoomMin)
    // the level is the only trigger: an unchanged level means an unchanged state
    ensures r.zoomLevel == s.zoomLevel ==> r == s
    ensures r.zoomLevel != s.zoomLevel ==>
              r.lastAutoZoomTime == now && r.faceDeadZone == DeadZone(r.zoomLevel)
    ensures Valid(s) ==> Valid(r)
  {
    if !s.autoZoomEnabled then s
    else if now - s.lastAutoZoomTime < AutoZoomInterval then s
    else if faceWidth < MinFaceWidth && s.zoomLevel < ZoomMax then
      UpdateDeadZone(s.(zoomLevel := MinReal(ZoomMax, s.zoomLevel + AutoZoomStep),
                        lastAutoZoomTime := now))
    else if faceWidth > MaxFaceWidth && s.zoomLevel > ZoomMin then
      UpdateDeadZone(s.(zoomLevel := MaxReal(ZoomMin, s.zoomLevel - AutoZoomStep),
                        lastAutoZoomTime := now))
    else s
  }

  /** A quotient with a fixed positive numerator shrinks as its positive divisor grows. */
  lemma QuotientAntitone(n: real, a: real, b: real)
    requires 0.0 <= n && 0.0 < a <= b
    ensures n / b <= n / a
  {
  }

  /** For positive levels, a higher zoom never gives a wider dead zone. */
  lemma {:induction false} DeadZoneAntitone(a: real, b: real)
    requires 0.0 < a <= b
    ensures DeadZone(b) <= DeadZone(a)
  {
    QuotientAntitone(BaseDeadZone as real, a, b);
    TruncMonotone(BaseDeadZone as real / b, BaseDeadZone as real / a);
  }

  /** Over the whole zoom range the dead zone lies between 20 and 80 pixels. */
  lemma DeadZoneRange(level: real)
    requires ZoomMin <= level <= ZoomMax
    ensures MinDeadZone <= DeadZone(level) <= BaseDeadZone
    ensures level >= 4.0 ==> DeadZone(level) == MinDeadZone
  {
  }

  /** Zooming in never widens the dead zone; zooming out never narrows it. */
  lemma ManualZoomMovesDeadZone(s: Controller)
    requires Valid(s)
    ensures ZoomIn(s).faceDeadZone <= s.faceDeadZone
    ensures ZoomOut(s).faceDeadZone >= s.faceDeadZone
  {
    if s.zoomLevel < ZoomMax {
      DeadZoneAntitone(s.zoomLevel, ZoomIn(s).zoomLevel);
    }
    if s.zoomLevel > ZoomMin {
      DeadZoneAntitone(ZoomOut(s).zoomLevel, s.zoomLevel);
    }
  }

  /** A manual step out undoes a step in that the maximum did not cut short. */
  lemma ZoomOutUndoesZoomIn(s: Controller)
    requires Valid(s)
    requires s.zoomLevel + ZoomStep <= ZoomMax
    ensures ZoomOut(ZoomIn(s)) == s
  {
  }

  /** A manual step in undoes a step out that the minimum did not cut short. */
  lemma ZoomInUndoesZoomOut(s: Controller)
    requires Valid(s)
    requires s.zoomLevel - ZoomStep >= ZoomMin
    ensures ZoomIn(ZoomOut(s)) == s
  {
  }

  /** Toggling the regulator twice restores the state. */
  lemma ToggleAutoZoomTwice(s: Controller)
    ensures ToggleAutoZoom(ToggleAutoZoom(s)) == s
  {
  }

  /**
   * The regulator steers the dead zone with the face: a small face (zoom in)
   * never widens it, a large face (zoom out) never narrows it.
   */
  lemma AutoZoomMovesDeadZone(s: Controller, faceWidth: int, now: real)
    requires Valid(s)
    ensures faceWidth < MinFaceWidth ==> AutoAdjustZoom(s, faceWidth, now).faceDeadZone <= s.faceDeadZone
    ensures faceWidth > MaxFaceWidth ==> AutoAdjustZoom(s, faceWidth, now).faceDeadZone >= s.faceDeadZone
  {
    var r := AutoAdjustZoom(s, faceWidth, now);
    if r.zoomLevel > s.zoomLevel {
      DeadZoneAntitone(s.zoomLevel, r.zoomLevel);
    } else if r.zoomLevel < s.zoomLevel {
      DeadZoneAntitone(r.zoomLevel, s.zoomLevel);
    }
  }
}
